=== FILE: README.md ===
# Mediredy front end: page state machines

Mediredy is a React single-page client for a medical-assistant service. All
medical reasoning, speech synthesis and image analysis happen on a remote
backend. What remains in the client is the state each page keeps and the way
its event handlers change it. This project models that logic in Dafny:

- the live AI-doctor consultation (`Consultation`): speech-recognition start/stop,
  the recognizer's result, error and end callbacks, voice messages, reply playback,
  and the capture → analyse → resume flow;
- the text chat (`Chat`), symptom selection (`Symptoms`), vital-sign form
  (`Vitals`), injury upload (`Upload`) and report upload (`Report`) pages.

Each page's state is an immutable datatype and each handler is a pure function.
The browser and the network appear as explicit inputs:

- a service call is an `Outcome` (`Replied(value)` or `Failed`);
- `recognition.start()` returns a `StartResult`;
- a camera snapshot is an `Option`.

What a handler hands back to the browser or the network is returned as data:
a request, or an ordered list of `Effect`s. Where a page has a loading flag,
the handler is split in two. `Begin…` covers the guard, raising the flag and
the request. `Settle…` applies the outcome and lowers the flag.

Supporting modules:

- `Text`: the JavaScript string built-ins the pages use (`trim` with
  ECMAScript's white-space set, `includes`, `substring(0, n)`, decimal `parseInt`).
- `Backend`: chat messages and the role mapping for `history`.
- `Playback`: the choice between the service's audio and local speech synthesis.
- `Wrappers`: `Option` and `Outcome`.

The model follows the code. Some consequences of the code worth knowing:

- The microphone button is not disabled during an analysis, so the consultation
  can be listening and analysing at once (`Consultation.ListeningWhileAnalyzing`).
- A reply without audio does not go straight to local speech. The code first asks
  the text-to-speech endpoint, and speaks locally only when that returns no audio
  or fails (`Playback.LocalOnlyAsFallback`).
- The chat page stores the reply's role as `ai` and maps it to `assistant` only
  in the request it sends (`Chat.SentHistoryIsSnapshot`).
- Toggling a symptom twice restores the list exactly only when the symptom was
  absent. When it was present, it comes back at the end
  (`Symptoms.ToggleTwiceWhenPresent`, `Symptoms.ToggleTwiceReorders`).
- On the chat page a reply is written onto the message list as it was when the
  message was sent. A "Clear chat" pressed while a reply is pending is therefore
  undone when the reply arrives (`Chat.ClearDuringSendIsUndone`).

## Model

| member | source | states |
|---|---|---|
| Text.Trim | src/pages/ChatInterface.js:47-49 | `trim` leaves a result that neither starts nor ends with white space and is no longer than its input |
| Text.TrimIsSlice | src/pages/ChatInterface.js:49 | the trimmed message is one contiguous slice of the input with only white space cut on either side |
| Text.BlankIffAllSpace | src/pages/ChatInterface.js:47 | `!input.trim()` holds exactly when every character is ECMAScript white space or a line terminator |
| Text.TrimIdempotent | src/pages/ChatInterface.js:49 | trimming an already trimmed message changes nothing |
| Text.ContainsIffOccurs | src/pages/AIDoctor.js:89 | `includes` holds exactly when the part occurs at some index |
| Text.Take | src/pages/AIDoctor.js:233 | `substring(0, n)` is a prefix of exactly n characters when the string is longer, and the whole string otherwise |
| Text.ParseInt | src/pages/VitalSigns.js:32-33 | `parseInt` of white space alone is NaN (sent as null), and a number is only read when the text holds a digit |
| Text.ParseIntUntrimmed | src/pages/VitalSigns.js:32-33 | text that does not start with white space is read from its first character, with nothing skipped |
| Text.ReadSignedOfDigits | src/pages/VitalSigns.js:32-33 | a non-empty run of digits is read whole, as its decimal value |
| Text.ParseIntOfDigits | src/pages/VitalSigns.js:32-33 | a non-empty decimal spelling, with or without a leading minus, is read as its value |
| Text.ParseIntReadsLeadingDigits | src/pages/VitalSigns.js:32-33 | `parseInt` stops at the first non-digit and returns the value of the digits before it |
| Text.ParseShow | src/pages/VitalSigns.js:32-33 | `parseInt` of a number's decimal spelling gives that number back |
| Backend.ApiRole | src/pages/AIDoctor.js:116 | a request role is "assistant" exactly when the stored role is the page's assistant role, and "user" otherwise |
| Backend.MapHistory | src/pages/AIDoctor.js:115-118 | the request history has the same length and contents as the message list, with every role mapped to "assistant" or "user" |
| Backend.MapHistoryIdempotent | src/pages/AIDoctor.js:115-118 | mapping an already mapped consultation history again changes nothing |
| Playback.SpeakText | src/pages/AIDoctor.js:142-168 | speech is first requested from the service; local synthesis with the given cap runs exactly when that call fails or returns no audio; otherwise its audio plays |
| Playback.ReplyPlayback | src/pages/AIDoctor.js:130-134 | audio that came with the reply is played remotely; without it the reply goes through `speakText` capped at 8000 ms |
| Playback.LocalOnlyAsFallback | src/pages/AIDoctor.js:130-168 | local synthesis is used exactly when neither the reply nor the text-to-speech call supplied audio |
| Playback.OneAudibleSound | src/pages/AIDoctor.js:130-168 | exactly one audible output per reply, and it comes last |
| Consultation.Init | src/pages/AIDoctor.js:5-10 | the page starts not listening and not analysing, with an empty transcript and history and no snapshot, and with the capture buttons enabled |
| Consultation.StartListeningSeen | src/pages/AIDoctor.js:81-92 | the start handler acts only with a recognizer and a false flag read; then the flag is set on success or on an "already started" error and nothing else changes |
| Consultation.StartListening | src/pages/AIDoctor.js:81-92 | with a recognizer and not listening, start is requested and the flag becomes true exactly on success or "already started"; otherwise nothing changes |
| Consultation.StopListening | src/pages/AIDoctor.js:95-106 | with a recognizer and listening, stop is requested and the flag is false afterwards whatever `stop()` did; otherwise nothing changes |
| Consultation.StopUndoesStart | src/pages/AIDoctor.js:81-106 | a successful start followed by a stop returns the session to where it was |
| Consultation.OnError | src/pages/AIDoctor.js:41-53 | "no-speech" changes nothing; any other error clears only the flag; the only effect is a retry timer, scheduled exactly for errors other than "no-speech" and "aborted" |
| Consultation.RetryFire | src/pages/AIDoctor.js:49-51 | the retry callback never changes the session and never starts the recognizer |
| Consultation.RetryNeverRestarts | src/pages/AIDoctor.js:47-51 | after an error other than no-speech or aborted, a retry is scheduled, and when it fires it starts nothing and the session stays not listening |
| Consultation.RetryFireIntended | src/pages/AIDoctor.js:49-51 | the intended retry does nothing for a session that was not listening, and otherwise starts the recognizer, listening exactly when it starts or was already running |
| Consultation.RetryRestartsAfterError | src/pages/AIDoctor.js:41-51 | with the intended retry, a listening session hit by an error listens again after the retry exactly when the recognizer starts |
| Consultation.OnEnd | src/pages/AIDoctor.js:55-66 | the end callback restarts only while listening, clears the flag if the restart throws, and never turns listening on |
| Consultation.HandleVoiceMessage | src/pages/AIDoctor.js:109-139 | blank text changes nothing. Otherwise the history grows by two: the user's text, then the reply or the fixed apology. Nothing else changes, and the request carries the pre-append history mapped by role |
| Consultation.VoiceMessageAppendsPair | src/pages/AIDoctor.js:76-78 | the history is never shortened, and the two new messages are user then assistant |
| Consultation.OnResult | src/pages/AIDoctor.js:30-39 | an interim fragment only replaces the transcript; a final one is dispatched as a voice message and the transcript is cleared |
| Consultation.FinalResultGrowsHistoryByTwo | src/pages/AIDoctor.js:30-38 | a final, non-blank fragment adds exactly two messages, clears the transcript and leaves the listening and analysing flags alone |
| Consultation.BeginAnalysis | src/pages/AIDoctor.js:196-220 | a missing snapshot changes nothing; a present one is stored; a usable one stops listening, raises `isAnalyzing`, and its effects are exactly the recognizer stop (when it was listening) followed by one image post; nothing but the snapshot and the two flags changes |
| Consultation.SettleAnalysis | src/pages/AIDoctor.js:231-242 | exactly one assistant message (headed analysis or failure text), a spoken summary of the first 200 characters or an alert, and `isAnalyzing` false afterwards; the effects are that speech or alert, followed only by a recognizer start when one is made; with a flag that reads not listening the recognizer is started and listening holds exactly when it started or was already running, while a flag that reads listening leaves listening unchanged and starts nothing |
| Consultation.AnalyzeAsWritten | src/pages/AIDoctor.js:215-243 | the flow as written: one assistant message appended with the rest of the history kept, the image posted exactly once, `isAnalyzing` false; a session that was listening ends not listening, and an idle one listens afterwards exactly when the recognizer starts; the transcript and recognizer are kept and the snapshot stays shown |
| Consultation.AsWrittenDoesNotResume | src/pages/AIDoctor.js:219-234 | a listening session with a working recognizer ends the analysis deaf |
| Consultation.Analyze | src/pages/AIDoctor.js:215-243 | the corrected flow: one assistant message appended, the image posted exactly once, `isAnalyzing` false, and listening resumed exactly when the recognizer starts |
| Consultation.AnalyzeResumesListening | src/pages/AIDoctor.js:234-239 | with a recognizer that starts, listening resumes after success and after failure |
| Consultation.PressCapture | src/pages/AIDoctor.js:388-404 | a press on a capture button does nothing while analysing; otherwise it runs the flow as written, adding one message, posting the image exactly once and leaving a listening session not listening |
| Consultation.PressCaptureCorrected | src/pages/AIDoctor.js:388-404 | with the corrected flow, a press while no analysis is running, on a page with a recognizer, ends with listening resumed exactly when the recognizer starts or was already running |
| Consultation.NoSecondSubmission | src/pages/AIDoctor.js:388-404 | while an analysis is in flight a second press posts nothing |
| Consultation.SummaryIsBounded | src/pages/AIDoctor.js:233 | the spoken summary reads the first 200 characters of the analysis, or all of it when shorter |
| Consultation.PressMicrophone | src/pages/AIDoctor.js:380-386 | the microphone button stops when listening; otherwise it starts the recognizer and listens exactly when the start succeeds or it was already running; only the listening flag changes |
| Consultation.ListeningWhileAnalyzing | src/pages/AIDoctor.js:380-404 | starting to listen during an analysis is possible, so the two flags are not exclusive |
| Chat.Init | src/pages/ChatInterface.js:5-13 | the page starts with one `ai` message holding the greeting text, an empty input and neither loading nor listening |
| Chat.BeginSend | src/pages/ChatInterface.js:46-64 | the send guard is exactly the Send button's enable rule; an accepted send clears the input, appends the trimmed user message, raises `loading` and sends the pre-append history |
| Chat.SettleSend | src/pages/ChatInterface.js:66-79 | the reply or the fixed apology is appended as an `ai` message to the send-time list, and `loading` is false |
| Chat.HandleSend | src/pages/ChatInterface.js:46-80 | a blank input or a pending reply changes nothing; an accepted send adds the trimmed user message then one `ai` message, net growth 2 |
| Chat.LoadingLifecycle | src/pages/ChatInterface.js:56-79 | `loading` is true while the request is out, which disables input and Send, and false after it settles |
| Chat.SentHistoryIsSnapshot | src/pages/ChatInterface.js:59-62 | the history sent excludes the new message, keeps length and contents, and maps `ai` to "assistant" and every other role to "user" |
| Chat.KeyPress | src/pages/ChatInterface.js:82-87 | Enter without Shift sends; any other key leaves the page as it is |
| Chat.ClearChat | src/pages/ChatInterface.js:104-111 | clearing leaves exactly one `ai` "Chat cleared" message and touches nothing else |
| Chat.ClearForgetsHistory | src/pages/ChatInterface.js:104-111 | clearing is idempotent and its result does not depend on the previous messages |
| Chat.ClearDuringSendIsUndone | src/pages/ChatInterface.js:53-76 | a clear during a pending send is overwritten by the send-time list plus the reply |
| Chat.ToggleVoice | src/pages/ChatInterface.js:89-102 | without a recognizer nothing changes; otherwise the listening flag flips (unless `start()` throws) and nothing else changes |
| Chat.ToggleTwice | src/pages/ChatInterface.js:89-102 | two toggles that reach the recognizer restore the page |
| Chat.OnVoiceResult | src/pages/ChatInterface.js:30-34 | a recognised phrase replaces the input and ends listening, nothing else changes |
| Chat.OnVoiceStopped | src/pages/ChatInterface.js:36-42 | an error or end event only clears the listening flag |
| Chat.VoiceResultEnablesSend | src/pages/ChatInterface.js:155-171 | after a recognised phrase, Send is enabled exactly when no reply is pending and the phrase is not blank |
| Symptoms.Without | src/pages/SymptomChecker.js:21 | the filter removes every copy of the symptom, keeps every other symptom with its multiplicity and relative order, and changes nothing when it is absent |
| Symptoms.Toggle | src/pages/SymptomChecker.js:18-24 | a selected symptom is removed, keeping the others in order; an unselected one is appended at the end; membership of other symptoms is unchanged |
| Symptoms.ToggleKeepsNoDuplicates | src/pages/SymptomChecker.js:18-24 | a duplicate-free selection stays duplicate-free |
| Symptoms.ToggleOnlyMovesItsSymptom | src/pages/SymptomChecker.js:18-24 | erasing the toggled symptom before and after toggling gives the same list: the others keep their order |
| Symptoms.ToggleTwiceWhenAbsent | src/pages/SymptomChecker.js:18-24 | selecting then deselecting a symptom restores the list exactly |
| Symptoms.ToggleTwiceWhenPresent | src/pages/SymptomChecker.js:18-24 | deselecting then reselecting keeps the same members but moves the symptom to the end |
| Symptoms.ToggleTwiceReorders | src/pages/SymptomChecker.js:18-24 | a concrete list where toggling twice reorders |
| Symptoms.BeginAssess | src/pages/SymptomChecker.js:26-33 | nothing is sent exactly when the selection is empty; otherwise `loading` is raised and the selection and details are sent |
| Symptoms.AssessGuard | src/pages/SymptomChecker.js:79-83 | an enabled Assess button always sends, and only a non-empty selection is ever sent |
| Symptoms.SettleAssess | src/pages/SymptomChecker.js:33-40 | `loading` is false afterwards; the assessment is replaced on success and unchanged on failure |
| Symptoms.Reset | src/pages/SymptomChecker.js:43-47 | the selection and details are emptied and the assessment is null |
| Symptoms.ResetDisablesAssess | src/pages/SymptomChecker.js:43-47 | after a reset the Assess button is disabled and the handler sends nothing |
| Vitals.HandleChange | src/pages/VitalSigns.js:15-20 | exactly the named field takes the value; the other three fields, the analysis and `loading` are unchanged |
| Vitals.HasDataIffSomeField | src/pages/VitalSigns.js:23-27 | submission is possible exactly when some field is not the empty string; a blank field counts as data |
| Vitals.IntField | src/pages/VitalSigns.js:32-33 | an empty heart-rate or SpO2 field becomes null; any non-empty all-digit text, leading zeros included, becomes its decimal value |
| Vitals.LeadingZerosIgnored | src/pages/VitalSigns.js:32 | a heart rate typed as "072" is sent as 72 |
| Vitals.ToPayload | src/pages/VitalSigns.js:31-36 | every empty field becomes null; blood pressure is passed verbatim; heart rate and SpO2 go through `parseInt` |
| Vitals.DigitFieldsAreNumbers | src/pages/VitalSigns.js:32-33 | fields spelling numbers are sent as those numbers |
| Vitals.ExamplePayload | src/pages/VitalSigns.js:31-36 | heart rate "72" with SpO2 and blood pressure empty is sent as 72, null, null |
| Vitals.EnabledButtonMayBeBlocked | src/pages/VitalSigns.js:134 | an empty form that is not loading has its button enabled, yet the handler sends nothing |
| Vitals.BeginAnalyze | src/pages/VitalSigns.js:22-31 | nothing is sent exactly when all four fields are empty; otherwise `loading` is raised and the payload is sent |
| Vitals.SentPayloadHasAField | src/pages/VitalSigns.js:23-36 | a sent payload always comes from a form with at least one filled field |
| Vitals.SettleAnalyze | src/pages/VitalSigns.js:37-45 | `loading` is false afterwards; the analysis is set on success only |
| Vitals.Reset | src/pages/VitalSigns.js:48-56 | all four fields become empty and the analysis null |
| Vitals.ResetBlocksSubmission | src/pages/VitalSigns.js:48-56 | a reset form cannot be submitted |
| Upload.Init | src/pages/InjuryDetection.js:5-8 | the page starts with no file, preview or result, not loading, and with the Analyze button disabled |
| Upload.SelectFile | src/pages/InjuryDetection.js:10-22 | an event without a file changes nothing; otherwise the file is selected and the result is kept |
| Upload.BeginAnalyze | src/pages/InjuryDetection.js:24-30 | nothing is sent exactly when no file is selected; otherwise `loading` is raised and only the file is posted |
| Upload.SettleAnalyze | src/pages/InjuryDetection.js:31-39 | `loading` is false afterwards; the result is replaced on success and unchanged on failure |
| Upload.LoadingLifecycle | src/pages/InjuryDetection.js:24-40 | an enabled press raises `loading` and disables the button until it settles false; without a file nothing is sent and `loading` stays false |
| Upload.Reset | src/pages/InjuryDetection.js:42-46 | file, preview and result are cleared and nothing else changes |
| Upload.ResetNeedsNewFile | src/pages/InjuryDetection.js:42-46 | after a reset nothing is sent until a file is picked again |
| Report.SelectReportType | src/pages/ReportAnalysis.js:68-71 | choosing a report type changes only the report type |
| Report.SelectFile | src/pages/ReportAnalysis.js:22-34 | an event without a file changes nothing; otherwise the file is selected |
| Report.BeginAnalyze | src/pages/ReportAnalysis.js:36-44 | nothing is sent exactly when no file is selected; otherwise the pending report page shows `loading` with the report type kept, and only the file is posted to the report endpoint |
| Report.ReportTypeNotSent | src/pages/ReportAnalysis.js:44 | whether anything is sent, and the request sent, do not depend on the chosen report type |
| Report.SettleAnalyze | src/pages/ReportAnalysis.js:43-51 | `loading` is false afterwards; the result is replaced on success only |
| Report.Reset | src/pages/ReportAnalysis.js:54-59 | file, preview, result and report type are cleared |

## Findings

| source | as written | input that shows it | evidently intended | confidence | as-written member | corrected member |
|---|---|---|---|---|---|---|
| src/pages/AIDoctor.js:219-239 | after the analysis, `startListening` reads `isListening` from the render in which the button was pressed, which is the value from before `stopListening` | press Injury while listening, with a recognizer whose `start()` succeeds: the session ends not listening (an idle session, conversely, is started) | listening resumes after the analysis, on success and on failure | not executed; high, since both calls come from one render's closure | Consultation.AsWrittenDoesNotResume | Consultation.AnalyzeResumesListening |
| src/pages/AIDoctor.js:49-51 | the retry callback runs `startListening` only when `isListening` is true, and `startListening` acts only when it is false, so the retry never starts the recognizer | any error other than no-speech or aborted while listening: the flag is cleared and the timer fires into a no-op | the recognizer is restarted one second after the error when the session had been listening | not executed; medium, since the intended condition is inferred from the retry's placement | Consultation.RetryNeverRestarts | Consultation.RetryRestartsAfterError |

`Consultation.AnalyzeAsWritten` models the code as written, and the capture
buttons (`Consultation.PressCapture`) run it. `Consultation.Analyze` reads the
current flag instead; `Consultation.PressCaptureCorrected` is the button press
with that correction.

`Consultation.RetryFire` models the retry callback as written.
`Consultation.RetryFireIntended` takes the flag as it was when the error arrived.

## Left out

- Camera start-up (`getUserMedia`) and canvas capture are left out. A snapshot is an input: `None` when the video or canvas is missing, else the data URL.
- Audio playback, the speech-synthesis engine and its 8-second cancellation timer are wall-clock behaviour. `Playback.SpeakLocal` only records that synthesis started with that cap.
- FileReader previews are asynchronous browser work. `preview` appears only so that reset can clear it.
- The HTTP wrappers, base URL and multipart encoding are left out. The backend is an oracle that replies or fails.
- A reply lacking an expected field is not modelled (for example, `analysis` undefined makes `substring` throw after the success message was appended). Every reply field is a string.
- React rendering, scrolling and the mount-time closures are left out. The recognizer callbacks are bound at mount and read the first render's `isListening` and `chatHistory`; each handler is modelled over an explicit session instead.
- Consultation.HandleVoiceMessage: the history sent is the session's current history, not the empty mount-time one the recognizer callback actually sees.
- Interleaving of concurrent requests is not modelled. Each `Begin…`/`Settle…` pair is composed directly, except in `Chat.ClearDuringSendIsUndone`.
- Alerts and console output are not modelled. Only the consultation's failure alert is recorded as an effect.
- Vitals.ToPayload: temperature carries the field text rather than `parseFloat`'s number, because floating point is out of scope.
- Text.ParseInt: the `0x` hexadecimal prefix and the loss of precision above 2^53 are not modelled. A number input never holds an `x`.
- Text.Take: counts Unicode scalar values, while JavaScript's `substring` counts UTF-16 code units. The two agree on text without astral characters.
- Plain `onChange` setters (chat input, symptom details) are not modelled. They only store the typed text.
- Routing, the navigation bar and the static Home and About pages are left out.

=== FILE: backend.dfy ===
/** The messages the chat pages keep, and how a page turns its own message
    list into the `history` field of a `/api/chat` request. */
module Backend {

  /** One chat bubble; `role` is kept as the page's own string ("user",
      "assistant" or "ai") so that the role mapping is modelled as written. */
  datatype Message = Message(role: string, content: string)

  /** The role a request carries: the page's assistant role becomes
      "assistant", every other role becomes "user". */
  function ApiRole(role: string, assistantRole: string): (r: string)
    ensures r == "assistant" || r == "user"
    ensures r == "assistant" <==> role == assistantRole
  {
    if role == assistantRole then "assistant" else "user"
  }

  /** `messages.map(msg => ({ role: ..., content: msg.content }))`. */
  function MapHistory(h: seq<Message>, assistantRole: string): (r: seq<Message>)
    ensures |r| == |h|
    ensures forall i :: 0 <= i < |h| ==>
      r[i].content == h[i].content && (r[i].role == "assistant" <==> h[i].role == assistantRole)
    ensures forall i :: 0 <= i < |r| ==> r[i].role == "assistant" || r[i].role == "user"
  {
    if h == [] then []
    else MapHistory(h[..|h| - 1], assistantRole) + [Message(ApiRole(h[|h| - 1].role, assistantRole), h[|h| - 1].content)]
  }

  /** A history that is already in request form is left as it is when it
      is mapped again with the "assistant" role. */
  lemma MapHistoryIdempotent(h: seq<Message>)
    ensures MapHistory(MapHistory(h, "assistant"), "assistant") == MapHistory(h, "assistant")
  {
    var m := MapHistory(h, "assistant");
    var mm := MapHistory(m, "assistant");
    forall i | 0 <= i < |m| ensures mm[i] == m[i] {
      assert m[i].role == "assistant" || m[i].role == "user";
    }
  }
}

=== FILE: chat.dfy ===
/** The text chat page: a message list that starts with a greeting, a
    trimmed send with a loading flag, one-shot voice input, and clearing. */
module Chat {
  import opened Wrappers
  import opened Text
  import opened Backend

  datatype Page = Page(
    messages: seq<Message>,   // roles "ai" and "user"
    input: string,
    loading: bool,
    isListening: bool,
    hasRecognizer: bool)      // the browser provides (webkit)SpeechRecognition

  /** A `/api/chat` request body. */
  datatype Request = Request(message: string, history: seq<Message>)

  /** The synchronous part of `handleSend`: either the guard returned, or
      the page is waiting for the reply. `snapshot` is `newMessages`, the
      list the reply will be appended to. */
  datatype Send = Ignored | InFlight(pending: Page, request: Request, snapshot: seq<Message>)

  const AiRole := "ai"
  const Greeting := "Hello! I'm Mediredy AI Doctor. How can I help you today? You can ask me about symptoms, medications, health concerns, or general medical questions."
  const SendApology := "I apologize, but I encountered an error. Please try again."
  const ClearedGreeting := "Chat cleared. How can I help you today?"

  /** The state at mount: one greeting from the assistant, nothing typed. */
  function Init(hasRecognizer: bool): (p: Page)
    ensures |p.messages| == 1 && p.messages[0].role == AiRole
    ensures p.messages[0].content == Greeting
    ensures p.input == [] && !p.loading && !p.isListening
  {
    Page([Message(AiRole, Greeting)], "", false, false, hasRecognizer)
  }

  /** The Send button is enabled unless loading or the input is blank. */
  predicate SendEnabled(p: Page) {
    !p.loading && !IsBlank(p.input)
  }

  /** The text box is enabled unless loading or listening. */
  predicate InputEnabled(p: Page) {
    !p.loading && !p.isListening
  }

  /** `handleSend` up to the awaited call. Its guard is exactly the Send
      button's enable rule. */
  function BeginSend(p: Page): (r: Send)
    ensures r.Ignored? <==> !SendEnabled(p)
    ensures r.InFlight? ==>
      && r.snapshot == p.messages + [Message("user", Trim(p.input))]
      && r.pending == p.(messages := r.snapshot, input := "", loading := true)
      && r.request.message == Trim(p.input)
      && r.request.history == MapHistory(p.messages, AiRole)
  {
    if IsBlank(p.input) || p.loading then Ignored
    else
      var text := Trim(p.input);
      var snapshot := p.messages + [Message("user", text)];
      InFlight(p.(messages := snapshot, input := "", loading := true),
               Request(text, MapHistory(p.messages, AiRole)), snapshot)
  }

  /** The rest of `handleSend` once the call has settled: the message list
      is set to the snapshot plus one assistant message, and `loading` is
      lowered in `finally`. */
  function SettleSend(current: Page, snapshot: seq<Message>, reply: Outcome<string>): (q: Page)
    ensures q.messages == snapshot + [Message(AiRole, if reply.Replied? then reply.value else SendApology)]
    ensures !q.loading
    ensures q.input == current.input && q.isListening == current.isListening
    ensures q.hasRecognizer == current.hasRecognizer
  {
    var answer := match reply
      case Replied(text) => text
      case Failed => SendApology;
    current.(messages := snapshot + [Message(AiRole, answer)], loading := false)
  }

  /** `handleSend` from click to settlement with nothing in between. */
  function HandleSend(p: Page, reply: Outcome<string>): (q: Page)
    ensures !SendEnabled(p) ==> q == p
    ensures SendEnabled(p) ==>
      var n := |p.messages|;
      && |q.messages| == n + 2
      && q.messages[..n] == p.messages
      && q.messages[n] == Message("user", Trim(p.input))
      && q.messages[n + 1] == Message(AiRole, if reply.Replied? then reply.value else SendApology)
      && q.input == "" && !q.loading
      && q.isListening == p.isListening && q.hasRecognizer == p.hasRecognizer
  {
    match BeginSend(p)
    case Ignored => p
    case InFlight(pending, _, snapshot) => SettleSend(pending, snapshot, reply)
  }

  /** `loading` is raised while the request is out and lowered after it,
      whatever the outcome. */
  lemma LoadingLifecycle(p: Page, reply: Outcome<string>)
    requires SendEnabled(p)
    ensures BeginSend(p).InFlight? && BeginSend(p).pending.loading
    ensures !InputEnabled(BeginSend(p).pending) && !SendEnabled(BeginSend(p).pending)
    ensures !HandleSend(p, reply).loading
  {
  }

  /** The history sent leaves out the new user message and carries each
      earlier message with "ai" as "assistant" and every other role as
      "user". */
  lemma SentHistoryIsSnapshot(p: Page)
    requires SendEnabled(p)
    ensures var h := BeginSend(p).request.history;
      && |h| == |p.messages|
      && forall i :: 0 <= i < |h| ==>
           h[i].content == p.messages[i].content
           && (h[i].role == "assistant" <==> p.messages[i].role == AiRole)
           && (h[i].role == "user" <==> p.messages[i].role != AiRole)
  {
  }

  /** `handleKeyPress`: Enter without Shift sends; other keys change
      nothing here (typing itself goes through the input's onChange). */
  function KeyPress(p: Page, key: string, shift: bool, reply: Outcome<string>): (q: Page)
    ensures key != "Enter" || shift ==> q == p
    ensures key == "Enter" && !shift ==> q == HandleSend(p, reply)
  {
    if key == "Enter" && !shift then HandleSend(p, reply) else p
  }

  /** `handleClearChat`: one fresh assistant message, nothing else touched. */
  function ClearChat(p: Page): (q: Page)
    ensures |q.messages| == 1 && q.messages[0] == Message(AiRole, ClearedGreeting)
    ensures q.input == p.input && q.loading == p.loading
    ensures q.isListening == p.isListening && q.hasRecognizer == p.hasRecognizer
  {
    p.(messages := [Message(AiRole, ClearedGreeting)])
  }

  /** Clearing is idempotent, and forgets everything that came before. */
  lemma ClearForgetsHistory(p: Page, p': Page)
    requires p.input == p'.input && p.loading == p'.loading
    requires p.isListening == p'.isListening && p.hasRecognizer == p'.hasRecognizer
    ensures ClearChat(ClearChat(p)) == ClearChat(p)
    ensures ClearChat(p) == ClearChat(p')
  {
  }

  /** The reply is appended to the snapshot taken at send time, so a
      Clear pressed while the reply is pending is undone when it arrives. */
  lemma ClearDuringSendIsUndone(p: Page, reply: Outcome<string>)
    requires SendEnabled(p)
    ensures var r := BeginSend(p);
      var q := SettleSend(ClearChat(r.pending), r.snapshot, reply);
      |q.messages| == |p.messages| + 2 && p.messages <= q.messages
  {
  }

  /** `toggleVoiceInput`. Without a recognizer only an alert is shown.
      `start()` throwing escapes the handler before the flag is set. */
  function ToggleVoice(p: Page, startThrew: bool): (q: Page)
    ensures !p.hasRecognizer ==> q == p
    ensures p.hasRecognizer && p.isListening ==> q == p.(isListening := false)
    ensures p.hasRecognizer && !p.isListening ==> (q.isListening <==> !startThrew)
    ensures q.(isListening := p.isListening) == p
  {
    if !p.hasRecognizer then p
    else if p.isListening then p.(isListening := false)
    else if startThrew then p
    else p.(isListening := true)
  }

  /** Two presses that both reach the recognizer restore the page. */
  lemma ToggleTwice(p: Page)
    ensures ToggleVoice(ToggleVoice(p, false), false) == p
  {
  }

  /** `onresult`: the transcript replaces the input and listening ends. */
  function OnVoiceResult(p: Page, transcript: string): (q: Page)
    ensures q.input == transcript && !q.isListening
    ensures q.(input := p.input, isListening := p.isListening) == p
  {
    p.(input := transcript, isListening := false)
  }

  /** `onerror` and `onend` both just end listening. */
  function OnVoiceStopped(p: Page): (q: Page)
    ensures !q.isListening && q.(isListening := p.isListening) == p
  {
    p.(isListening := false)
  }

  /** A recognised phrase can be sent as soon as it arrives, unless it is
      blank or a reply is pending. */
  lemma VoiceResultEnablesSend(p: Page, transcript: string)
    ensures SendEnabled(OnVoiceResult(p, transcript)) <==> !p.loading && !IsBlank(transcript)
    ensures !p.loading ==> InputEnabled(OnVoiceResult(p, transcript))
  {
  }
}

=== FILE: consultation.dfy ===
/** The live consultation view: speech recognition, voice messages to the
    chat endpoint, and camera snapshots sent for injury or report analysis.
    Each handler is a pure transition over an explicit `Session`; the
    recognizer's `start()` result, the camera snapshot and the service's
    replies are parameters. The outputs the handler hands to the browser or
    the network are listed, in order, as `Effect`s. */
module Consultation {
  import opened Wrappers
  import opened Text
  import opened Backend
  import Playback

  datatype Session = Session(
    hasRecognizer: bool,          // the browser provides webkitSpeechRecognition
    isListening: bool,
    transcript: string,
    chatHistory: seq<Message>,    // roles "user" and "assistant"
    capturedImage: Option<string>,
    isAnalyzing: bool)

  datatype ImageKind = Injury | Report

  datatype Effect =
    | RecognizerStart
    | RecognizerStop
    | RetryAfter(delayMs: nat)
    | PostChat(message: string, history: seq<Message>)
    | PostImage(kind: ImageKind, image: string)
    | Speak(sounds: seq<Playback.Sound>)
    | Alert(text: string)

  datatype Step = Step(session: Session, effects: seq<Effect>)

  /** How `recognition.start()` returned: normally, or by throwing an error
      with the given message. */
  datatype StartResult = Started | StartThrew(message: string)

  /** The fields of a `/api/chat` reply that the view reads. */
  datatype ChatReply = ChatReply(response: string, audio: Option<string>)

  const RetryDelayMs: nat := 1000
  const AlreadyStarted := "already started"
  const VoiceApology := "I apologize, I encountered an error. Please try again."
  const SummaryLimit: nat := 200

  /** The state at mount. */
  function Init(hasRecognizer: bool): (s: Session)
    ensures s.hasRecognizer == hasRecognizer && Valid(s)
    ensures !s.isListening && !s.isAnalyzing
    ensures s.transcript == [] && s.chatHistory == [] && s.capturedImage.None?
    ensures TriggersEnabled(s)
  {
    Session(hasRecognizer, false, "", [], None, false)
  }

  /** Only a page that has a recognizer can be listening. */
  predicate Valid(s: Session) {
    s.isListening ==> s.hasRecognizer
  }

  /** `startListening` as it runs when its guard reads the flag value `seen`
      (the value in the render that created the handler). */
  function StartListeningSeen(s: Session, seen: bool, r: StartResult): (t: Step)
    ensures !(s.hasRecognizer && !seen) ==> t == Step(s, [])
    ensures s.hasRecognizer && !seen ==>
      && t.effects == [RecognizerStart]
      && (t.session.isListening <==> s.isListening || r.Started? || Contains(r.message, AlreadyStarted))
      && t.session.(isListening := s.isListening) == s
  {
    if s.hasRecognizer && !seen then
      if r.Started? || Contains(r.message, AlreadyStarted) then
        Step(s.(isListening := true), [RecognizerStart])
      else
        Step(s, [RecognizerStart])
    else
      Step(s, [])
  }

  /** `startListening` reading the session's current flag. */
  function StartListening(s: Session, r: StartResult): (t: Step)
    ensures s.isListening || !s.hasRecognizer ==> t == Step(s, [])
    ensures s.hasRecognizer && !s.isListening ==>
      && t.effects == [RecognizerStart]
      && (t.session.isListening <==> r.Started? || Contains(r.message, AlreadyStarted))
      && t.session.(isListening := false) == s
    ensures Valid(s) ==> Valid(t.session)
  {
    StartListeningSeen(s, s.isListening, r)
  }

  /** `stopListening`. The flag is cleared before `stop()` is called and
      again in the `catch`, so the result of `stop()` cannot influence the
      state and is not a parameter. */
  function StopListening(s: Session): (t: Step)
    ensures !(s.hasRecognizer && s.isListening) ==> t == Step(s, [])
    ensures s.hasRecognizer && s.isListening ==>
      && t.effects == [RecognizerStop]
      && !t.session.isListening
      && t.session.(isListening := true) == s
    ensures Valid(s) ==> Valid(t.session) && !t.session.isListening
  {
    if s.hasRecognizer && s.isListening then Step(s.(isListening := false), [RecognizerStop])
    else Step(s, [])
  }

  /** A successful start followed by a stop returns to the session it
      started from. */
  lemma StopUndoesStart(s: Session)
    requires s.hasRecognizer && !s.isListening
    ensures StopListening(StartListening(s, Started).session) == Step(s, [RecognizerStop])
  {
  }

  /** `recognition.onerror`: "no-speech" is ignored; "aborted" clears the
      flag; any other error clears it and schedules the retry timer. */
  function OnError(s: Session, error: string): (t: Step)
    ensures error == "no-speech" ==> t == Step(s, [])
    ensures error != "no-speech" ==> !t.session.isListening && t.session.(isListening := s.isListening) == s
    ensures t.effects == if error == "no-speech" || error == "aborted" then [] else [RetryAfter(RetryDelayMs)]
    ensures Valid(s) ==> Valid(t.session)
  {
    if error == "no-speech" then Step(s, [])
    else if error == "aborted" then Step(s.(isListening := false), [])
    else Step(s.(isListening := false), [RetryAfter(RetryDelayMs)])
  }

  /** The retry timer's callback, `if (isListening) startListening()`: both
      tests read the same flag, and `startListening` acts only when it is
      false, so the callback can never change anything. */
  function RetryFire(s: Session, r: StartResult): (t: Step)
    ensures t == Step(s, [])
  {
    if s.isListening then StartListening(s, r) else Step(s, [])
  }

  /** After an error that schedules a retry, the retry as written leaves the
      session not listening and starts nothing. */
  lemma RetryNeverRestarts(s: Session, error: string, r: StartResult)
    requires error != "no-speech" && error != "aborted"
    ensures RetryAfter(RetryDelayMs) in OnError(s, error).effects
    ensures RetryFire(OnError(s, error).session, r).effects == []
    ensures !RetryFire(OnError(s, error).session, r).session.isListening
  {
  }

  /** The retry as evidently intended: restart the recognizer when the
      session was listening at the time of the error. */
  function RetryFireIntended(s: Session, wasListening: bool, r: StartResult): (t: Step)
    ensures !wasListening ==> t == Step(s, [])
    ensures wasListening && s.hasRecognizer && !s.isListening ==>
      && t.effects == [RecognizerStart]
      && (t.session.isListening <==> r.Started? || Contains(r.message, AlreadyStarted))
  {
    if wasListening then StartListening(s, r) else Step(s, [])
  }

  /** With the intended retry, a listening session hit by an error listens
      again once the retry fires, exactly when the recognizer starts. */
  lemma RetryRestartsAfterError(s: Session, error: string, r: StartResult)
    requires s.hasRecognizer && s.isListening
    requires error != "no-speech" && error != "aborted"
    ensures RetryAfter(RetryDelayMs) in OnError(s, error).effects
    ensures RetryFireIntended(OnError(s, error).session, s.isListening, r).effects == [RecognizerStart]
    ensures RetryFireIntended(OnError(s, error).session, s.isListening, r).session.isListening
      <==> r.Started? || Contains(r.message, AlreadyStarted)
  {
  }

  /** `recognition.onend`: while the flag is set, call `start()` again and
      clear the flag if that throws. It never turns listening on. */
  function OnEnd(s: Session, restartThrew: bool): (t: Step)
    ensures !s.isListening ==> t == Step(s, [])
    ensures s.isListening ==> t.effects == [RecognizerStart] && (t.session.isListening <==> !restartThrew)
    ensures t.session.(isListening := s.isListening) == s
    ensures Valid(s) ==> Valid(t.session)
  {
    if s.isListening then
      if restartThrew then Step(s.(isListening := false), [RecognizerStart])
      else Step(s, [RecognizerStart])
    else Step(s, [])
  }

  /** `handleVoiceMessage(text)` once the chat call (and, for a reply
      without audio, the text-to-speech call) has settled. The user's text
      is appended untrimmed, then one assistant message: the reply or the
      apology. The request carries the history from before the append. */
  function HandleVoiceMessage(s: Session, text: string, reply: Outcome<ChatReply>,
                              tts: Outcome<Option<string>>): (t: Step)
    ensures IsBlank(text) ==> t == Step(s, [])
    ensures !IsBlank(text) ==>
      var n := |s.chatHistory|;
      && |t.session.chatHistory| == n + 2
      && t.session.chatHistory[..n] == s.chatHistory
      && t.session.chatHistory[n] == Message("user", text)
      && t.session.chatHistory[n + 1]
         == Message("assistant", if reply.Replied? then reply.value.response else VoiceApology)
      && t.session.(chatHistory := s.chatHistory) == s
      && |t.effects| > 0
      && t.effects[0] == PostChat(text, MapHistory(s.chatHistory, "assistant"))
    ensures !IsBlank(text) && reply.Replied? ==>
      t.effects == [t.effects[0], Speak(Playback.ReplyPlayback(reply.value.response, reply.value.audio, tts))]
    ensures !IsBlank(text) && reply.Failed? ==> |t.effects| == 1
  {
    if IsBlank(text) then Step(s, [])
    else
      var sent := PostChat(text, MapHistory(s.chatHistory, "assistant"));
      var asked := s.chatHistory + [Message("user", text)];
      match reply
      case Replied(r) =>
        Step(s.(chatHistory := asked + [Message("assistant", r.response)]),
             [sent, Speak(Playback.ReplyPlayback(r.response, r.audio, tts))])
      case Failed =>
        Step(s.(chatHistory := asked + [Message("assistant", VoiceApology)]), [sent])
  }

  /** The history is append-only under voice messages: whatever the
      outcome, earlier messages stay where they were, and a user message is
      always followed by its assistant answer. */
  lemma VoiceMessageAppendsPair(s: Session, text: string, reply: Outcome<ChatReply>,
                                tts: Outcome<Option<string>>)
    requires !IsBlank(text)
    ensures var h := HandleVoiceMessage(s, text, reply, tts).session.chatHistory;
      && s.chatHistory <= h
      && h[|h| - 2].role == "user" && h[|h| - 1].role == "assistant"
  {
  }

  /** `recognition.onresult` for the fragment at `resultIndex`: the
      transcript shows the fragment; a final fragment is dispatched as a
      voice message and the transcript is cleared. */
  function OnResult(s: Session, fragment: string, isFinal: bool, reply: Outcome<ChatReply>,
                    tts: Outcome<Option<string>>): (t: Step)
    ensures !isFinal ==> t == Step(s.(transcript := fragment), [])
    ensures isFinal ==>
      var v := HandleVoiceMessage(s, fragment, reply, tts);
      t.session == v.session.(transcript := "") && t.effects == v.effects
  {
    var shown := s.(transcript := fragment);
    if !isFinal then Step(shown, [])
    else
      var v := HandleVoiceMessage(shown, fragment, reply, tts);
      Step(v.session.(transcript := ""), v.effects)
  }

  /** A final fragment with content grows the history by exactly two
      messages, and only listening-independent fields change. */
  lemma FinalResultGrowsHistoryByTwo(s: Session, fragment: string, reply: Outcome<ChatReply>,
                                     tts: Outcome<Option<string>>)
    requires !IsBlank(fragment)
    ensures var t := OnResult(s, fragment, true, reply, tts).session;
      && |t.chatHistory| == |s.chatHistory| + 2
      && t.transcript == ""
      && t.isListening == s.isListening && t.isAnalyzing == s.isAnalyzing
  {
  }

  // ---------------------------------------------------------------------
  // Image analysis: capture, stop listening, post the snapshot, report.
  // ---------------------------------------------------------------------

  /** The message prefixes exactly as the source file spells them: its
      emoji were stored double-encoded, so the literals hold these code
      points. */
  function AnalysisHeading(kind: ImageKind): string {
    match kind
    case Injury => "\U{011F}\U{0178}\U{201D} Injury Analysis:\n\n"
    case Report => "\U{011F}\U{0178}\U{201C}\U{2039} Report Analysis:\n\n"
  }

  function FailureMessage(kind: ImageKind): string {
    match kind
    case Injury => "\U{00E2}\U{0152} Failed to analyze injury."
    case Report => "\U{00E2}\U{0152} Failed to analyze report."
  }

  function FailureAlert(kind: ImageKind): string {
    match kind
    case Injury => "Failed to analyze injury."
    case Report => "Failed to analyze report."
  }

  function SummaryIntro(kind: ImageKind): string {
    match kind
    case Injury => "I've analyzed the image. "
    case Report => "I've analyzed the report. "
  }

  /** `captureImage()` returned a truthy data URL, so the handler goes on. */
  predicate Captured(capture: Option<string>) {
    capture.Some? && capture.value != ""
  }

  /** Both capture buttons carry `disabled={isAnalyzing}`. */
  predicate TriggersEnabled(s: Session) {
    !s.isAnalyzing
  }

  /** The synchronous part of `analyzeInjury`/`analyzeReport`: store the
      snapshot, give up on a missing one, else stop listening, raise
      `isAnalyzing` and post the image. */
  function BeginAnalysis(s: Session, kind: ImageKind, capture: Option<string>): (t: Step)
    ensures capture.None? ==> t == Step(s, [])
    ensures capture.Some? ==> t.session.capturedImage == capture
    ensures !Captured(capture) ==>
      t.effects == [] && t.session.(capturedImage := s.capturedImage) == s
    ensures Captured(capture) ==>
      && t.session.isAnalyzing
      && (Valid(s) ==> !t.session.isListening)
      && t.session.chatHistory == s.chatHistory
      && t.effects == (if s.hasRecognizer && s.isListening then [RecognizerStop] else [])
                      + [PostImage(kind, capture.value)]
      && t.session.(isListening := s.isListening, isAnalyzing := s.isAnalyzing,
                    capturedImage := s.capturedImage) == s
    ensures Valid(s) ==> Valid(t.session)
  {
    if capture.None? then Step(s, [])
    else
      var shown := s.(capturedImage := capture);
      if capture.value == "" then Step(shown, [])
      else
        var stopped := StopListening(shown);
        Step(stopped.session.(isAnalyzing := true), stopped.effects + [PostImage(kind, capture.value)])
  }

  /** What happens once the analysis call has settled: one assistant
      message (the headed analysis, or the failure text with an alert),
      speech of a summary on success, `startListening` on both paths, and
      `isAnalyzing` lowered in `finally`. `seen` is the listening flag that
      `startListening` reads. */
  function SettleAnalysis(p: Session, kind: ImageKind, seen: bool, outcome: Outcome<string>,
                          tts: Outcome<Option<string>>, start: StartResult): (t: Step)
    ensures !t.session.isAnalyzing
    ensures var n := |p.chatHistory|;
      && |t.session.chatHistory| == n + 1
      && t.session.chatHistory[..n] == p.chatHistory
      && t.session.chatHistory[n] == Message("assistant",
           if outcome.Replied? then AnalysisHeading(kind) + outcome.value else FailureMessage(kind))
    ensures outcome.Replied? ==>
      |t.effects| > 0 && t.effects[0] == Speak(Playback.SpeakText(
        SummaryIntro(kind) + Take(outcome.value, SummaryLimit), Playback.ReplyCapMs, tts))
    ensures outcome.Failed? ==> |t.effects| > 0 && t.effects[0] == Alert(FailureAlert(kind))
    ensures t.session.transcript == p.transcript && t.session.capturedImage == p.capturedImage
    ensures |t.effects| == if !seen && p.hasRecognizer then 2 else 1
    ensures !seen && p.hasRecognizer ==>
      && t.effects[1] == RecognizerStart
      && (t.session.isListening <==> p.isListening || start.Started? || Contains(start.message, AlreadyStarted))
    ensures seen || !p.hasRecognizer ==>
      t.session.isListening == p.isListening && RecognizerStart !in t.effects
    ensures Valid(p) ==> Valid(t.session)
  {
    var (text, first) := match outcome
      case Replied(a) =>
        (AnalysisHeading(kind) + a,
         Speak(Playback.SpeakText(SummaryIntro(kind) + Take(a, SummaryLimit), Playback.ReplyCapMs, tts)))
      case Failed => (FailureMessage(kind), Alert(FailureAlert(kind)));
    var reported := p.(chatHistory := p.chatHistory + [Message("assistant", text)]);
    var restarted := StartListeningSeen(reported, seen, start);
    assert !first.RecognizerStart?;
    Step(restarted.session.(isAnalyzing := false), [first] + restarted.effects)
  }

  /** `analyzeInjury`/`analyzeReport` as written: the handler's closure
      holds the flag from the render in which the button was pressed, and
      the `startListening` it calls after the analysis reads that same,
      pre-stop value. */
  function AnalyzeAsWritten(s: Session, kind: ImageKind, capture: Option<string>,
                            outcome: Outcome<string>, tts: Outcome<Option<string>>,
                            start: StartResult): (t: Step)
    ensures !Captured(capture) ==> t == BeginAnalysis(s, kind, capture)
    ensures Captured(capture) ==>
      && !t.session.isAnalyzing
      && |t.session.chatHistory| == |s.chatHistory| + 1
      && s.chatHistory <= t.session.chatHistory
      && t.session.chatHistory[|s.chatHistory|] == Message("assistant",
           if outcome.Replied? then AnalysisHeading(kind) + outcome.value else FailureMessage(kind))
      && PostImage(kind, capture.value) in t.effects
      && multiset(t.effects)[PostImage(kind, capture.value)] == 1
    ensures Captured(capture) ==>
      && t.session.transcript == s.transcript
      && t.session.capturedImage == capture
      && t.session.hasRecognizer == s.hasRecognizer
    ensures Captured(capture) && Valid(s) && s.isListening ==> !t.session.isListening
    ensures Captured(capture) && s.hasRecognizer && !s.isListening ==>
      (t.session.isListening <==> start.Started? || Contains(start.message, AlreadyStarted))
    ensures Valid(s) ==> Valid(t.session)
  {
    var b := BeginAnalysis(s, kind, capture);
    if !Captured(capture) then b
    else
      var settled := SettleAnalysis(b.session, kind, s.isListening, outcome, tts, start);
      assert b.effects[|b.effects| - 1] in b.effects;
      Step(settled.session, b.effects + settled.effects)
  }

  /** The flaw in the as-written flow: a session that was listening when
      the analysis began is left deaf afterwards, even though the
      recognizer would have started. */
  lemma AsWrittenDoesNotResume(kind: ImageKind, outcome: Outcome<string>, tts: Outcome<Option<string>>)
    ensures var s := Init(true).(isListening := true);
      !AnalyzeAsWritten(s, kind, Some("data:image/jpeg;base64,"), outcome, tts, Started).session.isListening
  {
  }

  /** The analysis flow with `startListening` reading the current flag, so
      that listening resumes after the analysis whatever its outcome. */
  function Analyze(s: Session, kind: ImageKind, capture: Option<string>,
                   outcome: Outcome<string>, tts: Outcome<Option<string>>,
                   start: StartResult): (t: Step)
    ensures !Captured(capture) ==>
      && t.effects == []
      && t.session.(capturedImage := s.capturedImage) == s
    ensures Captured(capture) ==>
      && !t.session.isAnalyzing
      && |t.session.chatHistory| == |s.chatHistory| + 1
      && s.chatHistory <= t.session.chatHistory
      && t.session.chatHistory[|s.chatHistory|].role == "assistant"
      && PostImage(kind, capture.value) in t.effects
      && multiset(t.effects)[PostImage(kind, capture.value)] == 1
    ensures Captured(capture) && Valid(s) && s.hasRecognizer ==>
      (t.session.isListening <==> start.Started? || Contains(start.message, AlreadyStarted))
    ensures Valid(s) ==> Valid(t.session)
  {
    var b := BeginAnalysis(s, kind, capture);
    if !Captured(capture) then b
    else
      var settled := SettleAnalysis(b.session, kind, b.session.isListening, outcome, tts, start);
      assert b.effects[|b.effects| - 1] in b.effects;
      Step(settled.session, b.effects + settled.effects)
  }

  /** With a recognizer that starts, the corrected flow always ends
      listening, on success and on failure alike. */
  lemma AnalyzeResumesListening(s: Session, kind: ImageKind, capture: Option<string>,
                                outcome: Outcome<string>, tts: Outcome<Option<string>>)
    requires Valid(s) && s.hasRecognizer && Captured(capture)
    ensures Analyze(s, kind, capture, outcome, tts, Started).session.isListening
  {
  }

  /** A press on a capture button, which runs the handler as written:
      ignored while disabled; otherwise one assistant message is added,
      `isAnalyzing` is false afterwards, and a session that was listening
      is left not listening. */
  function PressCapture(s: Session, kind: ImageKind, capture: Option<string>,
                        outcome: Outcome<string>, tts: Outcome<Option<string>>,
                        start: StartResult): (t: Step)
    ensures !TriggersEnabled(s) ==> t == Step(s, [])
    ensures TriggersEnabled(s) && Captured(capture) ==>
      && !t.session.isAnalyzing
      && |t.session.chatHistory| == |s.chatHistory| + 1
      && multiset(t.effects)[PostImage(kind, capture.value)] == 1
    ensures TriggersEnabled(s) && Captured(capture) && Valid(s) && s.isListening ==> !t.session.isListening
    ensures TriggersEnabled(s) && !Captured(capture) ==> t.effects == [] && t.session.chatHistory == s.chatHistory
  {
    if TriggersEnabled(s) then AnalyzeAsWritten(s, kind, capture, outcome, tts, start) else Step(s, [])
  }

  /** The same press with the corrected flow: listening resumes exactly when
      the recognizer starts. */
  function PressCaptureCorrected(s: Session, kind: ImageKind, capture: Option<string>,
                                 outcome: Outcome<string>, tts: Outcome<Option<string>>,
                                 start: StartResult): (t: Step)
    ensures !TriggersEnabled(s) ==> t == Step(s, [])
    ensures TriggersEnabled(s) && Captured(capture) && Valid(s) && s.hasRecognizer ==>
      !t.session.isAnalyzing
      && (t.session.isListening <==> start.Started? || Contains(start.message, AlreadyStarted))
  {
    if TriggersEnabled(s) then Analyze(s, kind, capture, outcome, tts, start) else Step(s, [])
  }

  /** While an analysis is in flight both capture buttons are disabled, so
      no second snapshot can be posted. */
  lemma NoSecondSubmission(s: Session, kind: ImageKind, capture: Option<string>,
                           kind2: ImageKind, capture2: Option<string>, outcome: Outcome<string>,
                           tts: Outcome<Option<string>>, start: StartResult)
    requires Captured(capture)
    ensures var pending := BeginAnalysis(s, kind, capture).session;
      !TriggersEnabled(pending)
      && PressCapture(pending, kind2, capture2, outcome, tts, start) == Step(pending, [])
      && PressCaptureCorrected(pending, kind2, capture2, outcome, tts, start) == Step(pending, [])
  {
  }

  /** The spoken summary reads the first 200 characters of the analysis,
      or all of it when it is shorter. */
  lemma SummaryIsBounded(a: string)
    ensures Take(a, SummaryLimit) <= a
    ensures |Take(a, SummaryLimit)| == if |a| < 200 then |a| else 200
  {
  }

  /** The microphone button: `isListening ? stopListening : startListening`. */
  function PressMicrophone(s: Session, r: StartResult): (t: Step)
    ensures s.isListening && s.hasRecognizer ==> !t.session.isListening && t.effects == [RecognizerStop]
    ensures !s.isListening && s.hasRecognizer ==>
      && t.effects == [RecognizerStart]
      && (t.session.isListening <==> r.Started? || Contains(r.message, AlreadyStarted))
    ensures !s.hasRecognizer ==> t == Step(s, [])
    ensures t.session.(isListening := s.isListening) == s
  {
    if s.isListening then StopListening(s) else StartListening(s, r)
  }

  /** The microphone button is not disabled during an analysis, so the
      session can be listening and analysing at once: the two flags are
      not mutually exclusive. */
  lemma ListeningWhileAnalyzing()
    ensures var pending := BeginAnalysis(Init(true), Injury, Some("data:image/jpeg;base64,")).session;
      var t := PressMicrophone(pending, Started).session;
      t.isListening && t.isAnalyzing
  {
  }
}

=== FILE: playback.dfy ===
/** The decision between the service's synthesised speech and on-device
    speech synthesis. Audio playback itself, the speech-synthesis engine and
    its cancellation timer are browser facilities outside the model; a
    `SpeakLocal` records that synthesis was started with the given cap. */
module Playback {
  import opened Wrappers

  datatype Sound =
    | RequestSpeech(text: string)            // POST /api/voice/text-to-speech
    | PlayRemote(audio: string)              // play base64 audio from the service
    | SpeakLocal(text: string, capMs: nat)   // on-device synthesis, cancelled after capMs

  /** Every call site in the consultation view caps local speech at 8 s. */
  const ReplyCapMs: nat := 8000

  /** JavaScript truthiness of an optional base64 payload. */
  predicate Truthy(audio: Option<string>) {
    audio.Some? && audio.value != ""
  }

  predicate Audible(s: Sound) {
    s.PlayRemote? || s.SpeakLocal?
  }

  predicate UsesLocal(r: seq<Sound>) {
    exists i :: 0 <= i < |r| && r[i].SpeakLocal?
  }

  /** `speakText(text, capMs)`: ask the service for speech first; play what
      it returns, and fall back to local synthesis when it returns no audio
      or the call fails. */
  function SpeakText(text: string, capMs: nat, tts: Outcome<Option<string>>): (r: seq<Sound>)
    ensures |r| == 2 && r[0] == RequestSpeech(text) && Audible(r[1])
    ensures r[1].SpeakLocal? <==> !(tts.Replied? && Truthy(tts.value))
    ensures r[1].SpeakLocal? ==> r[1] == SpeakLocal(text, capMs)
    ensures r[1].PlayRemote? ==> tts.Replied? && r[1].audio == tts.value.value
  {
    match tts
    case Replied(audio) =>
      if Truthy(audio) then [RequestSpeech(text), PlayRemote(audio.value)]
      else [RequestSpeech(text), SpeakLocal(text, capMs)]
    case Failed => [RequestSpeech(text), SpeakLocal(text, capMs)]
  }

  /** Playback of a chat reply: the audio that came with the reply is played
      when present, otherwise the reply goes through `SpeakText` with the
      8-second cap. */
  function ReplyPlayback(reply: string, audio: Option<string>, tts: Outcome<Option<string>>): (r: seq<Sound>)
    ensures Truthy(audio) ==> r == [PlayRemote(audio.value)]
    ensures !Truthy(audio) ==> r == SpeakText(reply, ReplyCapMs, tts)
  {
    if Truthy(audio) then [PlayRemote(audio.value)] else SpeakText(reply, ReplyCapMs, tts)
  }

  /** Remote audio first: local synthesis happens exactly when neither the
      reply nor the text-to-speech call produced audio. */
  lemma LocalOnlyAsFallback(reply: string, audio: Option<string>, tts: Outcome<Option<string>>)
    ensures UsesLocal(ReplyPlayback(reply, audio, tts))
        <==> !Truthy(audio) && !(tts.Replied? && Truthy(tts.value))
  {
    var r := ReplyPlayback(reply, audio, tts);
    if Truthy(audio) {
      assert !r[0].SpeakLocal?;
    } else if !(tts.Replied? && Truthy(tts.value)) {
      assert r[1].SpeakLocal?;
    } else {
      assert !r[0].SpeakLocal? && !r[1].SpeakLocal?;
    }
  }

  /** Exactly one sound is heard for each reply. */
  lemma OneAudibleSound(reply: string, audio: Option<string>, tts: Outcome<Option<string>>)
    ensures var r := ReplyPlayback(reply, audio, tts);
      |r| > 0 && Audible(r[|r| - 1]) && forall i :: 0 <= i < |r| - 1 ==> !Audible(r[i])
  {
  }
}

=== FILE: report.dfy ===
/** The report upload page: the injury page's upload flow plus a report
    type chosen from a list, which is shown but never sent. */
module Report {
  import opened Wrappers
  import Upload

  datatype Page = Page(upload: Upload.Page, reportType: string)

  /** The select's onChange. */
  function SelectReportType(p: Page, reportType: string): (q: Page)
    ensures q.reportType == reportType && q.upload == p.upload
  {
    p.(reportType := reportType)
  }

  function SelectFile(p: Page, picked: Option<Upload.File>): (q: Page)
    ensures picked.None? ==> q == p
    ensures picked.Some? ==> q.upload.selectedFile == picked
    ensures q.reportType == p.reportType && q.upload.result == p.upload.result
  {
    p.(upload := Upload.SelectFile(p.upload, picked))
  }

  /** `handleAnalyze` on the report page: what it would send and the page
      shown while the request is pending. */
  datatype Analyze = Ignored | InFlight(pending: Page, request: Upload.Request)

  /** `handleAnalyze` up to the awaited call: the file alone goes to the
      report endpoint. */
  function BeginAnalyze(p: Page): (r: Analyze)
    ensures r.Ignored? <==> p.upload.selectedFile.None?
    ensures r.InFlight? ==>
      && r.request == Upload.Request(Upload.ReportAnalysis, p.upload.selectedFile.value)
      && r.pending.upload == p.upload.(loading := true)
      && r.pending.reportType == p.reportType
  {
    match Upload.BeginAnalyze(p.upload, Upload.ReportAnalysis)
    case Ignored => Ignored
    case InFlight(pending, request) => InFlight(p.(upload := pending), request)
  }

  /** The chosen report type has no effect on what is sent: two pages that
      differ only in it send the same request. */
  lemma ReportTypeNotSent(p: Page, t1: string, t2: string)
    ensures BeginAnalyze(SelectReportType(p, t1)).Ignored? == BeginAnalyze(SelectReportType(p, t2)).Ignored?
    ensures BeginAnalyze(SelectReportType(p, t1)).InFlight? ==>
      BeginAnalyze(SelectReportType(p, t1)).request == BeginAnalyze(SelectReportType(p, t2)).request
  {
  }

  function SettleAnalyze(p: Page, outcome: Outcome<string>): (q: Page)
    ensures !q.upload.loading && q.reportType == p.reportType
    ensures outcome.Replied? ==> q.upload.result == Some(outcome.value)
    ensures outcome.Failed? ==> q.upload.result == p.upload.result
  {
    p.(upload := Upload.SettleAnalyze(p.upload, outcome))
  }

  /** `handleReset`: the injury page's reset plus the report type. */
  function Reset(p: Page): (q: Page)
    ensures q.upload.selectedFile == None && q.upload.preview == None && q.upload.result == None
    ensures q.reportType == "" && q.upload.loading == p.upload.loading
  {
    Page(Upload.Reset(p.upload), "")
  }
}

=== FILE: symptoms.dfy ===
/** The symptom checker page: an ordered selection toggled one symptom at a
    time, free-text details, and an assessment from the service. */
module Symptoms {
  import opened Wrappers

  datatype Page = Page(
    selected: seq<string>,
    additionalInfo: string,
    assessment: Option<string>,   // the service's reply body, opaque here
    loading: bool)

  /** A `/api/symptom-assessment` request body. */
  datatype Request = Request(symptoms: seq<string>, additionalInfo: string)

  datatype Assess = Ignored | InFlight(pending: Page, request: Request)

  predicate NoDuplicates(xs: seq<string>) {
    forall i, j :: 0 <= i < j < |xs| ==> xs[i] != xs[j]
  }

  /** `a` is `b` with some elements left out, order kept. */
  predicate IsSubsequence(a: seq<string>, b: seq<string>)
    decreases |b|
  {
    a == [] || (b != [] && if a[0] == b[0] then IsSubsequence(a[1..], b[1..]) else IsSubsequence(a, b[1..]))
  }

  /** `xs.filter(s => s !== x)`. */
  function Without(xs: seq<string>, x: string): (r: seq<string>)
    ensures x !in r
    ensures forall y :: y != x ==> (y in r <==> y in xs)
    ensures forall y :: y != x ==> multiset(r)[y] == multiset(xs)[y]
    ensures IsSubsequence(r, xs)
    ensures x !in xs ==> r == xs
    ensures x in xs ==> |r| < |xs|
  {
    if xs == [] then []
    else
      var rest := Without(xs[1..], x);
      assert xs == [xs[0]] + xs[1..];
      if xs[0] == x then rest
      else
        var r := [xs[0]] + rest;
        assert r[1..] == rest;
        r
  }

  /** `toggleSymptom`: remove the symptom when it is selected, otherwise
      append it at the end. */
  function Toggle(selected: seq<string>, s: string): (r: seq<string>)
    ensures s in r <==> s !in selected
    ensures forall y :: y != s ==> (y in r <==> y in selected)
    ensures s in selected ==> IsSubsequence(r, selected) && |r| < |selected|
    ensures s !in selected ==> |r| == |selected| + 1 && r[..|selected|] == selected && r[|selected|] == s
  {
    if s in selected then
      Without(selected, s)
    else selected + [s]
  }

  lemma {:induction false} NoDuplicatesWithout(xs: seq<string>, x: string)
    requires NoDuplicates(xs)
    ensures NoDuplicates(Without(xs, x))
  {
    var r := Without(xs, x);
    forall i, j | 0 <= i < j < |r| ensures r[i] != r[j] {
      if r[i] == r[j] {
        RepeatedCountsTwice(r, i, j);
        MultisetNoDuplicates(xs, r[i]);
      }
    }
  }

  /** A value at two positions occurs at least twice. */
  lemma RepeatedCountsTwice(r: seq<string>, i: nat, j: nat)
    requires i < j < |r| && r[i] == r[j]
    ensures multiset(r)[r[i]] >= 2
  {
    assert r == r[..j] + r[j..];
    assert r[i] in multiset(r[..j]) by {
      assert r[..j][i] == r[i];
    }
    assert r[j] in multiset(r[j..]) by {
      assert r[j..][0] == r[j];
    }
  }

  /** In a list without duplicates every value occurs at most once. */
  lemma {:induction false} MultisetNoDuplicates(xs: seq<string>, y: string)
    requires NoDuplicates(xs)
    ensures multiset(xs)[y] <= 1
  {
    if xs != [] {
      assert xs == [xs[0]] + xs[1..];
      MultisetNoDuplicates(xs[1..], y);
      if xs[0] == y {
        assert y !in xs[1..];
      }
    }
  }

  /** Toggling keeps a duplicate-free selection duplicate-free. */
  lemma ToggleKeepsNoDuplicates(selected: seq<string>, s: string)
    requires NoDuplicates(selected)
    ensures NoDuplicates(Toggle(selected, s))
  {
    if s in selected {
      NoDuplicatesWithout(selected, s);
    }
  }

  lemma {:induction false} WithoutAppend(xs: seq<string>, y: string, x: string)
    ensures Without(xs + [y], x) == Without(xs, x) + (if y == x then [] else [y])
    decreases |xs|
  {
    if xs == [] {
      assert [y][1..] == [];
    } else {
      assert (xs + [y])[1..] == xs[1..] + [y];
      WithoutAppend(xs[1..], y, x);
    }
  }

  /** Toggling touches only the toggled symptom: the other symptoms keep
      their order, since erasing the toggled one before and after gives the
      same list. */
  lemma ToggleOnlyMovesItsSymptom(selected: seq<string>, s: string)
    ensures Without(Toggle(selected, s), s) == Without(selected, s)
  {
    if s !in selected {
      WithoutAppend(selected, s, s);
    }
  }

  /** Selecting a symptom and deselecting it again restores the list. */
  lemma ToggleTwiceWhenAbsent(selected: seq<string>, s: string)
    requires s !in selected
    ensures Toggle(Toggle(selected, s), s) == selected
  {
    WithoutAppend(selected, s, s);
  }

  /** Deselecting and reselecting a symptom keeps the same set but moves it
      to the end. */
  lemma ToggleTwiceWhenPresent(selected: seq<string>, s: string)
    requires s in selected
    ensures Toggle(Toggle(selected, s), s) == Without(selected, s) + [s]
    ensures forall y :: y in Toggle(Toggle(selected, s), s) <==> y in selected
  {
  }

  /** So toggling twice is not always the identity. */
  lemma ToggleTwiceReorders()
    ensures Toggle(Toggle(["Fever", "Cough"], "Fever"), "Fever") == ["Cough", "Fever"]
  {
    assert "Fever" in ["Fever", "Cough"];
    assert Without(["Fever", "Cough"], "Fever") == ["Cough"] by {
      assert ["Fever", "Cough"][1..] == ["Cough"];
      assert ["Cough"][1..] == [];
    }
  }

  /** The Assess button: disabled while loading or with nothing selected. */
  predicate AssessEnabled(p: Page) {
    !p.loading && |p.selected| > 0
  }

  /** `handleAssess` up to the awaited call. An empty selection only
      raises an alert. */
  function BeginAssess(p: Page): (r: Assess)
    ensures r.Ignored? <==> |p.selected| == 0
    ensures r.InFlight? ==>
      && r.pending == p.(loading := true)
      && r.request == Request(p.selected, p.additionalInfo)
  {
    if |p.selected| == 0 then Ignored
    else InFlight(p.(loading := true), Request(p.selected, p.additionalInfo))
  }

  /** The rest of `handleAssess`: the assessment is replaced on success
      only, and `loading` is lowered in `finally`. */
  function SettleAssess(p: Page, outcome: Outcome<string>): (q: Page)
    ensures !q.loading
    ensures outcome.Replied? ==> q.assessment == Some(outcome.value)
    ensures outcome.Failed? ==> q.assessment == p.assessment
    ensures q.selected == p.selected && q.additionalInfo == p.additionalInfo
  {
    match outcome
    case Replied(a) => p.(assessment := Some(a), loading := false)
    case Failed => p.(loading := false)
  }

  /** An enabled button always sends, and a request is only ever sent for
      a non-empty selection. */
  lemma AssessGuard(p: Page)
    ensures AssessEnabled(p) ==> BeginAssess(p).InFlight?
    ensures BeginAssess(p).InFlight? ==> |BeginAssess(p).request.symptoms| > 0
  {
  }

  /** `handleReset`. */
  function Reset(p: Page): (q: Page)
    ensures q.selected == [] && q.additionalInfo == "" && q.assessment == None
    ensures q.loading == p.loading
  {
    Page([], "", None, p.loading)
  }

  /** After a reset nothing can be assessed until a symptom is chosen. */
  lemma ResetDisablesAssess(p: Page)
    ensures !AssessEnabled(Reset(p)) && BeginAssess(Reset(p)).Ignored?
  {
  }
}

=== FILE: text.dfy ===
/** The JavaScript string built-ins the pages rely on: `trim`, `includes`,
    `substring(0, n)` and `parseInt`, over strings as sequences of characters. */
module Text {
  import opened Wrappers

  /** ECMAScript WhiteSpace and LineTerminator code points: exactly what
      `String.prototype.trim` strips and what `parseInt` skips. */
  predicate IsSpace(c: char) {
    || c == '\t' || c == '\n' || c == '\U{000B}' || c == '\U{000C}' || c == '\r'
    || c == ' ' || c == '\U{00A0}' || c == '\U{1680}'
    || ('\U{2000}' <= c <= '\U{200A}')
    || c == '\U{2028}' || c == '\U{2029}' || c == '\U{202F}' || c == '\U{205F}'
    || c == '\U{3000}' || c == '\U{FEFF}'
  }

  predicate AllSpace(s: string) {
    forall i :: 0 <= i < |s| ==> IsSpace(s[i])
  }

  /** Drops leading white space: the result is the suffix that starts at the
      first non-space character. */
  function TrimStart(s: string): (r: string)
    ensures |r| <= |s| && r == s[|s| - |r|..]
    ensures AllSpace(s[..|s| - |r|])
    ensures r == [] || !IsSpace(r[0])
  {
    if |s| > 0 && IsSpace(s[0]) then
      var r := TrimStart(s[1..]);
      assert s[..|s| - |r|] == [s[0]] + s[1..][..|s| - 1 - |r|];
      r
    else s
  }

  /** Drops trailing white space: the result is the prefix that ends at the
      last non-space character. */
  function TrimEnd(s: string): (r: string)
    ensures |r| <= |s| && r == s[..|r|]
    ensures AllSpace(s[|r|..])
    ensures r == [] || !IsSpace(r[|r| - 1])
  {
    if |s| > 0 && IsSpace(s[|s| - 1]) then
      var r := TrimEnd(s[..|s| - 1]);
      assert s[|r|..] == s[..|s| - 1][|r|..] + [s[|s| - 1]];
      r
    else s
  }

  /** `String.prototype.trim`. */
  function Trim(s: string): (r: string)
    ensures |r| <= |s|
    ensures r == [] || (!IsSpace(r[0]) && !IsSpace(r[|r| - 1]))
  {
    TrimEnd(TrimStart(s))
  }

  /** `!s.trim()`: the string is empty once trimmed. */
  predicate IsBlank(s: string) {
    Trim(s) == []
  }

  /** Trim keeps one contiguous slice of its input and removes only white
      space around it. */
  lemma TrimIsSlice(s: string) returns (i: nat, j: nat)
    ensures i <= j <= |s|
    ensures Trim(s) == s[i..j]
    ensures AllSpace(s[..i]) && AllSpace(s[j..])
  {
    var t := TrimStart(s);
    i := |s| - |t|;
    var e := TrimEnd(t);
    j := i + |e|;
    SliceOfSuffix(s, i, |e|);
  }

  /** Cutting a suffix of `s` at `k` is cutting `s` at `i + k`. */
  lemma SliceOfSuffix(s: string, i: nat, k: nat)
    requires i + k <= |s|
    ensures s[i..][..k] == s[i..i + k]
    ensures s[i..][k..] == s[i + k..]
  {
  }

  /** A string is blank exactly when every character is white space. */
  lemma BlankIffAllSpace(s: string)
    ensures IsBlank(s) <==> AllSpace(s)
  {
    var i, j := TrimIsSlice(s);
    if IsBlank(s) {
      assert i == j;
      forall k | 0 <= k < |s| ensures IsSpace(s[k]) {
        if k < i {
          assert s[k] == s[..i][k];
        } else {
          assert s[k] == s[j..][k - j];
        }
      }
    } else {
      assert s[i] == Trim(s)[0];
      assert !IsSpace(s[i]);
    }
  }

  /** Trimming twice is trimming once. */
  lemma TrimIdempotent(s: string)
    ensures Trim(Trim(s)) == Trim(s)
  {
    var t := Trim(s);
    assert TrimStart(t) == t;
    assert TrimEnd(t) == t;
  }

  /** `s.includes(part)`. */
  predicate Contains(s: string, part: string)
    decreases |s|
  {
    part <= s || (|s| > 0 && Contains(s[1..], part))
  }

  /** A string contains `part` exactly when `part` occurs at some index. */
  lemma {:induction false} ContainsIffOccurs(s: string, part: string)
    ensures Contains(s, part) <==> exists i :: 0 <= i <= |s| - |part| && OccursAt(s, part, i)
    decreases |s|
  {
    if part <= s {
      assert OccursAt(s, part, 0);
    } else if |s| == 0 {
    } else {
      ContainsIffOccurs(s[1..], part);
      if Contains(s[1..], part) {
        var i :| 0 <= i <= |s[1..]| - |part| && OccursAt(s[1..], part, i);
        assert OccursAt(s, part, i + 1);
      }
      if exists i :: 0 <= i <= |s| - |part| && OccursAt(s, part, i) {
        var i :| 0 <= i <= |s| - |part| && OccursAt(s, part, i);
        if i > 0 {
          assert OccursAt(s[1..], part, i - 1);
        }
      }
    }
  }

  predicate OccursAt(s: string, part: string, i: int) {
    0 <= i && i + |part| <= |s| && s[i..i + |part|] == part
  }

  /** `s.substring(0, n)`: the first `n` characters, or all of `s` when it is
      shorter. */
  function Take(s: string, n: nat): (r: string)
    ensures r <= s
    ensures |r| <= n
    ensures |s| <= n ==> r == s
    ensures |s| > n ==> |r| == n
  {
    if |s| <= n then s else s[..n]
  }

  predicate IsDigit(c: char) {
    '0' <= c <= '9'
  }

  predicate AllDigits(s: string) {
    forall i :: 0 <= i < |s| ==> IsDigit(s[i])
  }

  /** The longest prefix made of decimal digits. */
  function LeadingDigits(s: string): (r: string)
    ensures r <= s && AllDigits(r)
    ensures r == s || !IsDigit(s[|r|])
  {
    if |s| > 0 && IsDigit(s[0]) then [s[0]] + LeadingDigits(s[1..]) else []
  }

  /** The value of a decimal digit string, most significant digit first. */
  function DigitsValue(d: string): nat
    requires AllDigits(d)
  {
    if d == [] then 0 else DigitsValue(d[..|d| - 1]) * 10 + (d[|d| - 1] as int - '0' as int)
  }

  /** Reads an optional sign and the longest run of digits from the start
      of `t`; `None` when no digit follows the sign. */
  function ReadSigned(t: string): (r: Option<int>)
    ensures r.Some? ==> exists i :: 0 <= i < |t| && IsDigit(t[i])
    ensures r.Some? ==> |t| > 0 && (IsDigit(t[0]) || t[0] == '-' || t[0] == '+')
  {
    var negative := |t| > 0 && t[0] == '-';
    var u := if |t| > 0 && (t[0] == '-' || t[0] == '+') then t[1..] else t;
    var d := LeadingDigits(u);
    assert d != [] ==> d[0] == t[|t| - |u|];
    if d == [] then None
    else
      var v: int := DigitsValue(d);
      Some(if negative then -v else v)
  }

  /** `parseInt(s)` with the default radix on decimal text: skip leading
      white space, read an optional sign and the longest run of digits;
      `None` stands for `NaN`, which the request body serialises as `null`. */
  function ParseInt(s: string): (r: Option<int>)
    ensures AllSpace(s) ==> r == None
    ensures r.Some? ==> exists i :: 0 <= i < |s| && IsDigit(s[i])
  {
    var t := TrimStart(s);
    var r := ReadSigned(t);
    assert r.Some? ==> exists i :: 0 <= i < |s| && IsDigit(s[i]) by {
      if r.Some? {
        var k :| 0 <= k < |t| && IsDigit(t[k]);
        assert s[|s| - |t| + k] == t[k];
      }
    }
    assert AllSpace(s) ==> r == None by {
      if AllSpace(s) && |t| > 0 {
        assert t[0] == s[|s| - |t|];
      }
    }
    r
  }

  /** Text that does not start with white space is not trimmed. */
  lemma TrimStartNoSpace(s: string)
    requires s == [] || !IsSpace(s[0])
    ensures TrimStart(s) == s
  {
  }

  /** Text that does not start with white space is read from its first
      character. */
  lemma ParseIntUntrimmed(s: string)
    requires s == [] || !IsSpace(s[0])
    ensures ParseInt(s) == ReadSigned(s)
  {
    TrimStartNoSpace(s);
  }

  lemma {:induction false} LeadingDigitsOfPrefix(d: string, rest: string)
    requires AllDigits(d)
    requires rest == [] || !IsDigit(rest[0])
    ensures LeadingDigits(d + rest) == d
    decreases |d|
  {
    if d == [] {
      assert d + rest == rest;
    } else {
      assert (d + rest)[1..] == d[1..] + rest;
      LeadingDigitsOfPrefix(d[1..], rest);
    }
  }

  /** Text starting with a digit is read without a sign. */
  lemma ReadUnsigned(t: string)
    requires |t| > 0 && IsDigit(t[0])
    ensures ReadSigned(t) == Some(DigitsValue(LeadingDigits(t)))
  {
  }

  /** Text starting with a minus sign is read as the negated digits after it. */
  lemma ReadNegative(t: string)
    requires |t| > 1 && t[0] == '-' && IsDigit(t[1])
    ensures ReadSigned(t) == Some(-(DigitsValue(LeadingDigits(t[1..])) as int))
  {
    assert t[1..][0] == t[1];
  }

  lemma ReadSignedOfDigits(s: string)
    requires s != [] && AllDigits(s)
    ensures ReadSigned(s) == Some(DigitsValue(s))
  {
    assert IsDigit(s[0]);
    ReadUnsigned(s);
    AllDigitsLeading(s);
  }

  lemma ReadSignedOfNegatedDigits(s: string)
    requires s != [] && AllDigits(s)
    ensures ReadSigned("-" + s) == Some(-(DigitsValue(s) as int))
  {
    DropSign(s);
    ReadMinusDigits("-" + s, s);
  }

  lemma DropSign(s: string)
    ensures |"-" + s| == |s| + 1 && ("-" + s)[0] == '-' && ("-" + s)[1..] == s
  {
  }

  lemma ReadMinusDigits(m: string, s: string)
    requires |m| > 1 && m[0] == '-' && m[1..] == s && s != [] && AllDigits(s)
    ensures ReadSigned(m) == Some(-(DigitsValue(s) as int))
  {
    assert IsDigit(s[0]) && m[1] == s[0];
    ReadNegative(m);
    AllDigitsLeading(s);
  }

  /** A non-empty digit string reads as its decimal value, with or
      without a leading minus sign. */
  lemma ParseIntOfDigits(s: string)
    requires s != [] && AllDigits(s)
    ensures ParseInt(s) == Some(DigitsValue(s))
    ensures ParseInt("-" + s) == Some(-(DigitsValue(s) as int))
  {
    DigitNotSpace(s[0]);
    ParseIntUntrimmed(s);
    ReadSignedOfDigits(s);
    DropSign(s);
    ParseIntUntrimmed("-" + s);
    ReadSignedOfNegatedDigits(s);
  }

  lemma DigitNotSpace(c: char)
    requires IsDigit(c)
    ensures !IsSpace(c)
  {
  }

  /** `parseInt` stops at the first character that is not a digit, so
      "72.5" reads as 72 and "1e3" as 1. */
  lemma ParseIntReadsLeadingDigits(d: string, rest: string)
    requires d != [] && AllDigits(d)
    requires rest == [] || !IsDigit(rest[0])
    ensures ParseInt(d + rest) == Some(DigitsValue(d))
  {
    var s := d + rest;
    assert s[0] == d[0] && IsDigit(d[0]);
    assert !IsSpace(s[0]);
    ParseIntUntrimmed(s);
    ReadUnsigned(s);
    LeadingDigitsOfPrefix(d, rest);
  }

  function DigitChar(n: nat): char
    requires n < 10
  {
    ('0' as int + n) as char
  }

  /** The decimal spelling of a natural number, as a browser number input
      holds it. */
  function Show(n: nat): (r: string)
    decreases n
  {
    if n < 10 then [DigitChar(n)] else Show(n / 10) + [DigitChar(n % 10)]
  }

  lemma {:induction false} ShowDigits(n: nat)
    ensures |Show(n)| > 0 && AllDigits(Show(n))
    ensures DigitsValue(Show(n)) == n
    decreases n
  {
    if n >= 10 {
      ShowDigits(n / 10);
      var s := Show(n);
      assert s[..|s| - 1] == Show(n / 10);
    }
  }

  lemma AllDigitsLeading(s: string)
    ensures AllDigits(s) ==> LeadingDigits(s) == s
  {
  }

  /** Decimal round trip: `parseInt` of a number's spelling gives the number
      back; for example "72" reads as 72. */
  lemma ParseShow(n: nat)
    ensures ParseInt(Show(n)) == Some(n)
  {
    ShowDigits(n);
    var s := Show(n);
    assert !IsSpace(s[0]);
    assert TrimStart(s) == s;
    assert s[0] != '-' && s[0] != '+';
    AllDigitsLeading(s);
  }
}

=== FILE: upload.dfy ===
/** The injury upload page: pick an image, post it for analysis, show the
    result. The report page reuses this record and adds a report type. */
module Upload {
  import opened Wrappers

  /** A browser `File`, opaque to the page. */
  type File = string

  /** Which analysis endpoint a page posts to. */
  datatype Endpoint = InjuryDetection | ReportAnalysis

  datatype Page = Page(
    selectedFile: Option<File>,
    preview: Option<string>,     // data URL filled in by a FileReader
    result: Option<string>,      // the service's reply body, opaque here
    loading: bool)

  /** The multipart request: the file is the only field. */
  datatype Request = Request(endpoint: Endpoint, file: File)

  datatype Analyze = Ignored | InFlight(pending: Page, request: Request)

  /** The state at mount: nothing picked, nothing shown, not loading. */
  function Init(): (p: Page)
    ensures p.selectedFile.None? && p.preview.None? && p.result.None? && !p.loading
    ensures !AnalyzeEnabled(p)
  {
    Page(None, None, None, false)
  }

  /** `handleFileSelect`: `files[0]` becomes the selection when present;
      an event without a file changes nothing. */
  function SelectFile(p: Page, picked: Option<File>): (q: Page)
    ensures picked.None? ==> q == p
    ensures picked.Some? ==> q.selectedFile == picked
    ensures q.preview == p.preview && q.result == p.result && q.loading == p.loading
  {
    match picked
    case None => p
    case Some(_) => p.(selectedFile := picked)
  }

  /** The Analyze button: disabled while loading or without a file. */
  predicate AnalyzeEnabled(p: Page) {
    !p.loading && p.selectedFile.Some?
  }

  /** `handleAnalyze` up to the awaited call: without a file only an alert
      is shown and nothing is sent. */
  function BeginAnalyze(p: Page, endpoint: Endpoint): (r: Analyze)
    ensures r.Ignored? <==> p.selectedFile.None?
    ensures r.InFlight? ==>
      r.pending == p.(loading := true) && r.request == Request(endpoint, p.selectedFile.value)
  {
    match p.selectedFile
    case None => Ignored
    case Some(f) => InFlight(p.(loading := true), Request(endpoint, f))
  }

  /** The rest of `handleAnalyze`: the result is replaced on success only,
      and `loading` is lowered in `finally`. */
  function SettleAnalyze(p: Page, outcome: Outcome<string>): (q: Page)
    ensures !q.loading
    ensures outcome.Replied? ==> q.result == Some(outcome.value)
    ensures outcome.Failed? ==> q.result == p.result
    ensures q.selectedFile == p.selectedFile && q.preview == p.preview
  {
    match outcome
    case Replied(a) => p.(result := Some(a), loading := false)
    case Failed => p.(loading := false)
  }

  /** Click to settlement on an enabled button: `loading` is raised while
      the request is out and is false again afterwards, whatever the
      outcome; a button without a file never sends and leaves `loading`
      false. */
  lemma LoadingLifecycle(p: Page, endpoint: Endpoint, outcome: Outcome<string>)
    ensures AnalyzeEnabled(p) ==>
      var r := BeginAnalyze(p, endpoint);
      r.InFlight? && r.pending.loading && !AnalyzeEnabled(r.pending)
      && !SettleAnalyze(r.pending, outcome).loading
    ensures p.selectedFile.None? && !p.loading ==>
      BeginAnalyze(p, endpoint).Ignored? && !AnalyzeEnabled(p)
  {
  }

  /** `handleReset`: file, preview and result are cleared, `loading` is
      left alone. */
  function Reset(p: Page): (q: Page)
    ensures q.selectedFile == None && q.preview == None && q.result == None
    ensures q.loading == p.loading
  {
    Page(None, None, None, p.loading)
  }

  /** After a reset nothing can be analysed until a file is picked again. */
  lemma ResetNeedsNewFile(p: Page, endpoint: Endpoint, picked: File)
    ensures BeginAnalyze(Reset(p), endpoint).Ignored?
    ensures BeginAnalyze(SelectFile(Reset(p), Some(picked)), endpoint).InFlight?
  {
  }
}

=== FILE: vitals.dfy ===
/** The vital-sign page: four text fields, a "some field filled" guard, and
    the request payload built from the field texts. */
module Vitals {
  import opened Wrappers
  import opened Text

  datatype Field = HeartRate | Spo2 | Temperature | BloodPressure

  /** The controlled inputs' values, as the browser hands them over. */
  datatype Form = Form(heartRate: string, spo2: string, temperature: string, bloodPressure: string)

  datatype Page = Page(form: Form, analysis: Option<string>, loading: bool)

  /** The `/api/vital-signs` body. `None` is JSON `null`; an integer field
      holds `parseInt` of the text, and `parseInt`'s `NaN` is written as
      `null` by the JSON encoder, so it is `None` too. `temperature` keeps
      the text that `parseFloat` reads. */
  datatype Payload = Payload(
    heartRate: Option<int>,
    spo2: Option<int>,
    temperature: Option<string>,
    bloodPressure: Option<string>)

  datatype Analyze = Ignored | InFlight(pending: Page, payload: Payload)

  const EmptyForm := Form("", "", "", "")

  function Get(f: Form, field: Field): string {
    match field
    case HeartRate => f.heartRate
    case Spo2 => f.spo2
    case Temperature => f.temperature
    case BloodPressure => f.bloodPressure
  }

  /** `handleChange(field, value)`: that field takes the value, the other
      three keep theirs. */
  function HandleChange(p: Page, field: Field, value: string): (q: Page)
    ensures Get(q.form, field) == value
    ensures forall g :: g != field ==> Get(q.form, g) == Get(p.form, g)
    ensures q.analysis == p.analysis && q.loading == p.loading
  {
    var f := p.form;
    var f' := match field
      case HeartRate => f.(heartRate := value)
      case Spo2 => f.(spo2 := value)
      case Temperature => f.(temperature := value)
      case BloodPressure => f.(bloodPressure := value);
    p.(form := f')
  }

  /** `Object.values(vitals).some(v => v !== '')`. */
  predicate HasData(f: Form) {
    f.heartRate != "" || f.spo2 != "" || f.temperature != "" || f.bloodPressure != ""
  }

  /** Submission is possible exactly when some field is not the empty
      string; white space counts as data. */
  lemma HasDataIffSomeField(f: Form)
    ensures HasData(f) <==> exists g :: Get(f, g) != ""
    ensures HasData(f.(heartRate := " "))
  {
    if HasData(f) {
      if f.heartRate != "" { assert Get(f, HeartRate) != ""; }
      else if f.spo2 != "" { assert Get(f, Spo2) != ""; }
      else if f.temperature != "" { assert Get(f, Temperature) != ""; }
      else { assert Get(f, BloodPressure) != ""; }
    }
  }

  /** `text ? parseInt(text) : null`: empty is null, and a non-empty run of
      decimal digits (leading zeros included, as a number input keeps them)
      is its value. */
  function IntField(text: string): (r: Option<int>)
    ensures text == "" ==> r == None
    ensures text != "" && AllDigits(text) ==> r == Some(DigitsValue(text))
    ensures forall n: nat :: text == Show(n) ==> r == Some(n)
  {
    if text == "" then None
    else
      var r := ParseInt(text);
      assert AllDigits(text) ==> r == Some(DigitsValue(text)) by {
        if AllDigits(text) { ParseIntOfDigits(text); }
      }
      forall n: nat | text == Show(n) ensures r == Some(n) {
        ParseShow(n);
      }
      r
  }

  /** Leading zeros do not change the value: "072" is sent as 72. */
  lemma LeadingZerosIgnored()
    ensures IntField("072") == Some(72)
  {
    assert AllDigits("072");
    assert DigitsValue("072") == 72 by {
      assert "072"[..2] == "07";
      assert "07"[..1] == "0";
      assert "0"[..0] == "";
    }
  }

  /** The payload built from the form: an empty field is `null`, a filled
      blood pressure is passed on verbatim, and a filled heart rate or SpO2
      is read with `parseInt`. */
  function ToPayload(f: Form): (r: Payload)
    ensures f.heartRate == "" ==> r.heartRate == None
    ensures f.heartRate != "" ==> r.heartRate == ParseInt(f.heartRate)
    ensures f.spo2 == "" ==> r.spo2 == None
    ensures f.spo2 != "" ==> r.spo2 == ParseInt(f.spo2)
    ensures r.temperature == None <==> f.temperature == ""
    ensures f.temperature != "" ==> r.temperature == Some(f.temperature)
    ensures r.bloodPressure == None <==> f.bloodPressure == ""
    ensures f.bloodPressure != "" ==> r.bloodPressure == Some(f.bloodPressure)
  {
    Payload(
      IntField(f.heartRate),
      IntField(f.spo2),
      if f.temperature == "" then None else Some(f.temperature),
      if f.bloodPressure == "" then None else Some(f.bloodPressure))
  }

  /** A field holding a number's decimal spelling is sent as that number;
      for example "72" is sent as 72. */
  lemma DigitFieldsAreNumbers(f: Form, hr: nat, spo2: nat)
    requires f.heartRate == Show(hr) && f.spo2 == Show(spo2)
    ensures ToPayload(f).heartRate == Some(hr) && ToPayload(f).spo2 == Some(spo2)
  {
  }

  /** The worked example: heart rate "72" and temperature "36.5" with the
      other two fields empty. */
  lemma ExamplePayload()
    ensures ToPayload(Form("72", "", "36.5", "")) == Payload(Some(72), None, Some("36.5"), None)
  {
    assert Show(72) == "72";
  }

  /** The Analyze button is disabled only while loading. */
  predicate AnalyzeEnabled(p: Page) {
    !p.loading
  }

  /** `handleAnalyze` up to the awaited call: blocked, with an alert,
      exactly when all four fields are empty. */
  function BeginAnalyze(p: Page): (r: Analyze)
    ensures r.Ignored? <==> !HasData(p.form)
    ensures r.InFlight? ==> r.pending == p.(loading := true) && r.payload == ToPayload(p.form)
  {
    if !HasData(p.form) then Ignored
    else InFlight(p.(loading := true), ToPayload(p.form))
  }

  /** Because the button is disabled only while loading, a press on an
      enabled button with every field empty still reaches the handler,
      which then only raises an alert. */
  lemma EnabledButtonMayBeBlocked(p: Page)
    requires p.form == EmptyForm && !p.loading
    ensures AnalyzeEnabled(p)
    ensures BeginAnalyze(p).Ignored?
  {
  }

  /** A payload is only ever sent with at least one non-null field. */
  lemma SentPayloadHasAField(p: Page)
    requires BeginAnalyze(p).InFlight?
    ensures var d := BeginAnalyze(p).payload;
      p.form.heartRate != "" || p.form.spo2 != "" || d.temperature.Some? || d.bloodPressure.Some?
  {
  }

  /** The rest of `handleAnalyze`: the analysis is set on success only and
      `loading` is lowered in `finally`. */
  function SettleAnalyze(p: Page, outcome: Outcome<string>): (q: Page)
    ensures !q.loading && q.form == p.form
    ensures outcome.Replied? ==> q.analysis == Some(outcome.value)
    ensures outcome.Failed? ==> q.analysis == p.analysis
  {
    match outcome
    case Replied(a) => p.(analysis := Some(a), loading := false)
    case Failed => p.(loading := false)
  }

  /** `handleReset`. */
  function Reset(p: Page): (q: Page)
    ensures forall g :: Get(q.form, g) == ""
    ensures q.analysis == None && q.loading == p.loading
  {
    Page(EmptyForm, None, p.loading)
  }

  /** A reset form cannot be submitted. */
  lemma ResetBlocksSubmission(p: Page)
    ensures BeginAnalyze(Reset(p)).Ignored?
  {
  }
}

=== FILE: wrappers.dfy ===
/** Optional values and the outcome of a call to the remote service.
    The service is an oracle: a request either settles with a reply or fails
    (network error, non-2xx status, or an exception thrown while the reply
    is being handled). */
module Wrappers {

  /** JavaScript `null`/`undefined` versus a present value. */
  datatype Option<+T> = None | Some(value: T)

  /** How an awaited request settled: the `try` branch or the `catch` branch. */
  datatype Outcome<+T> = Replied(value: T) | Failed
}
